=== FILE: README.md ===
# lemonpy control plane in Dafny

lemonpy lets a client process tell a long-lived server to update the status
bars it manages. Each bar is a `lemonbar` subprocess. This project models three sequential
pieces of that control plane and proves properties of them:

- **The bar registry** (`LemonbarServer`, module `Registry`). It holds two
  maps, user name to local id and local id to bar object. It supports
  `register`, name lookup, `update_bar` and `close_bar` delegation, and the
  fan-out `close`.
- **The lemonbar wrapper** (`Lemonbar`). The flag builder is module
  `LemonbarOptions`. It turns the twelve optional settings into command-line
  flags in a fixed order. The shutdown state machine is module
  `LemonbarClose`. It runs terminate, then wait, then an optional kill, then
  wait again. It also models `__del__`.
- **The IPC command path** (`LemonpyClient` and `LemonpyServer`, module
  `Ipc`). This covers the `Command` enum, socket-path validation, and the
  client's UPDATE message. The receive step appends non-empty payloads to a
  FIFO queue. The dispatch step pops the front payload, decodes it, and calls
  `update_bar` on the manager. `close` runs its steps in a fixed order.

Abstractions:

- A bar object is an identity (`BarRef`). Its `managed` attribute is kept in
  the manager state as the set of bars whose flag is set.
- What a bar's own `update`/`close` does is a `Responder` oracle: it returns
  normally or raises a given error.
- `uuid.uuid4()` is a counter, `nextId`, so fresh ids can be proved fresh.
- The dictionary `_bar_map` is an insertion-ordered sequence of
  `(id, bar)` pairs, because `close` iterates it in insertion order.
- The subprocess is a `PollOracle`. It says, for the i-th `poll()` of one
  `close` call, whether the process has exited.
- Wall-clock time is a poll budget, the number of polls one `_wait` window
  makes. With the source's sleep of `timeout_s / 10`, a positive timeout
  allows ten polls and any other timeout allows none (`PollBudget`).
- JSON with UTF-8 is an abstract `Codec` whose decoder inverts its encoder.
- The file system is the set of paths that exist.
- Sockets and threads are explicit state plus step functions. The model
  covers one step at a time and no interleavings.

All Python exception classes are collapsed into one `Errors.Error`
datatype. `IsLemonpyError` marks the kinds that derive from `LemonpyError`.

Behaviour of the code that the model keeps as written:

- The registry's `close()` (server.py:28-30) calls `close()` on the bars
  one by one. The first bar that raises ends the loop, so later bars are
  never closed.
- `close_bar` (server.py:32-34) closes the bar but removes nothing from
  either map, so the name still resolves afterwards.
- The dispatch step (ipc.py:111-113) never reads the `cmd` field. Every
  payload is treated as an UPDATE.
- `register` (server.py:46-65) binds the name before the managed check, so
  a refused bar still leaves its name bound (see "## Findings").
- The dispatch loop (ipc.py:108-115) catches only `queue.Empty`, so one bad
  payload ends it (see "## Findings").
- An unknown name (server.py:38-39) raises a plain `LemonpyError`, modelled
  as `NotManaged`.

## Model

| member | source | states |
|---|---|---|
| Registry.Init | lemonpy/server.py:21-26 | A fresh registry has both maps empty. So every name lookup fails with the not-managed error, and `close()` on it makes no call and returns. The `managed` flags are whatever the bar objects already carry. |
| Registry.InitValid | lemonpy/server.py:21-26 | A fresh registry satisfies the invariant. |
| Registry.Get | lemonpy/server.py:37 | `_bar_map.get(id)` finds a bar exactly when some entry has that id, and the bar it returns is stored under that id. |
| Registry.Put | lemonpy/server.py:64 | After `_bar_map.update({id: bar})` the id maps to the bar and every other id maps as before. A new id is appended at the end of the iteration order. |
| Registry.BarFromName | lemonpy/server.py:36-40 | Lookup returns a bar exactly when the name maps to an id stored in the bar map, and it returns the bar stored under that id. Otherwise it raises the not-managed error. |
| Registry.RegisterById | lemonpy/server.py:60-65 | Fails with `AlreadyManaged` iff the bar's flag is set, and then changes nothing. It succeeds iff the flag is clear. On success it stores the bar under the id, sets the flag, and leaves every other id as it was. |
| Registry.Register | lemonpy/server.py:46-65 | A name already present gives `DuplicateBarId` and no change. A managed bar gives `AlreadyManaged`, but the name is still bound and the bar map and flags stay unchanged. Otherwise the name resolves to the bar and the bar's flag is set. |
| Registry.RegisterPreservesValid | lemonpy/server.py:55-65 | Registration keeps the invariant. Ids stay below the generator and names keep distinct ids. Each stored id and bar occurs once, and every stored bar is managed. |
| Registry.RegisterAppends | lemonpy/server.py:55-65 | A successful registration binds the name to the next id, appends the bar under that unused id at the end of the bar map, and sets the bar's flag. |
| Registry.RegisterFrame | lemonpy/server.py:55-65 | Registering one name never changes what any other name resolves to. |
| Registry.AlreadyManagedLeavesNameDangling | lemonpy/server.py:52-62 | After `AlreadyManaged`, looking up that name fails, and registering the name again is refused as a duplicate. |
| Registry.RegisterTwoNames | lemonpy/server.py:46-65 | Two distinct new names with two distinct unmanaged bars both register. Each name then resolves to its own bar. |
| Registry.SameBarTwice | lemonpy/server.py:60-62 | Registering the same bar object under a second name is refused as already managed. |
| Registry.UpdateBar | lemonpy/server.py:42-44 | An unknown name raises and makes no call. A known name makes exactly one `update(content)` call, on the resolved bar, and ends as that call ends. |
| Registry.UpdateAfterRegister | lemonpy/server.py:42-44 | After a successful registration, `update_bar` of that name reaches exactly the registered bar. |
| Registry.CloseBar | lemonpy/server.py:32-34 | An unknown name raises and makes no call. A known name makes exactly one `close()` call, on the resolved bar. |
| Registry.CloseBarKeepsName | lemonpy/server.py:32-34 | `close_bar` removes nothing, so the name still resolves to its bar and stays registered. |
| Registry.CloseAll | lemonpy/server.py:28-30 | Calls `close()` on the stored bars in iteration order. It returns normally iff every bar was closed without error. Otherwise it stops at the first bar that raised, never attempts later bars, and raises that error. |
| Registry.RegisterAtomic | lemonpy/server.py:46-65 | The corrected registration. Any failure leaves the whole state unchanged, with the same two error conditions as the original. |
| Registry.RegisterLeaksName | lemonpy/server.py:55-58 | Counterexample: with bar 7 already managed, `register("top", 7)` fails but still changes the state. Registering `"top"` with a fresh bar then gives `DuplicateBarId`. The corrected registration accepts it. |
| Registry.RegisterAtomicAgrees | lemonpy/server.py:46-65 | The corrected and original registrations end the same way. They give the same state on success, and the corrected one keeps the invariant. |
| LemonbarOptions.OptionIfOption | lemonpy/lemonbar.py:177-181 | Nothing for an absent value. Otherwise one element that starts with a space and holds the switch and the value, both recoverable from it. |
| LemonbarOptions.OptionFlag | lemonpy/lemonbar.py:184-188 | Nothing for an absent switch. Otherwise exactly the switch. |
| LemonbarOptions.OptionFlagIgnoresTruth | lemonpy/lemonbar.py:184-188 | A switch given as `False` emits the flag just as `True` does. |
| LemonbarOptions.Slots | lemonpy/lemonbar.py:160-171 | The `opts` list has one slot per setting, twelve in all, in the order of the switches. A slot holds an element iff its setting is given. |
| LemonbarOptions.Present | lemonpy/lemonbar.py:174 | Dropping the `None` slots keeps exactly the present values, one element per present slot. They stay in slot order: the value of slot `i` sits at the number of present slots before it. |
| LemonbarOptions.SlotsCarrySwitches | lemonpy/lemonbar.py:159-172 | Each of the twelve slots holds an element exactly when its setting is given. That element carries the switch of its position. |
| LemonbarOptions.BuildCliOptions | lemonpy/lemonbar.py:159-174 | One element per given setting, so at most twelve. The switches appear in the order `-g -b -d -f -a -p -n -u -B -F -o -U`, with absent settings omitted. |
| LemonbarOptions.ParseBuildRoundTrip | lemonpy/lemonbar.py:159-188 | The reader accepts only an exact ` -s value` element for a valued switch and only the bare switch for a boolean one. Reading the built flag list back with it recovers every valued setting exactly, and each boolean setting only as present or absent. So every built element has exactly the text `_option_if_option` or `_option_flag` produces. |
| LemonbarOptions.ParseIsExact | lemonpy/lemonbar.py:177-188 | The reader rejects elements the builder never produces: a boolean switch carrying a value (` -b junk`), and a valued switch without its separating space (`-g`). |
| LemonbarClose.PollBudgetMatchesClock | lemonpy/lemonbar.py:127-136 | The poll budget is the first iteration at which the elapsed sleep time reaches the timeout. |
| LemonbarClose.Wait | lemonpy/lemonbar.py:127-139 | Succeeds iff some poll in the window sees the exit, and stops at the first such poll. It makes at most one budget of polls, uses the whole budget when it fails, and sends no signal. |
| LemonbarClose.Close | lemonpy/lemonbar.py:121-157 | With no process, or an exit already seen, it sends no signal and returns. Otherwise terminate comes first and is sent once. Kill is sent iff kill is allowed and the terminate window failed. It succeeds iff the exit is seen in the terminate window or, with kill, in the kill window. Any failure is a `LemonbarError`. Kill goes out at most once, right after the initial poll and the full terminate window of `budget` polls. A failing call used every window it opened: `1 + budget` polls without kill, `1 + 2·budget` with it. |
| LemonbarClose.TerminateThenKill | lemonpy/lemonbar.py:148-157 | After a first poll that sees the process running: terminate is sent first and only once. Kill follows iff kill is allowed and the terminate window failed. The call succeeds iff either window sees the exit. |
| LemonbarClose.KillThenWait | lemonpy/lemonbar.py:154-155 | After a failed terminate window: exactly one kill, then a second window. The call succeeds iff that window sees the exit, and a failure used the full window. |
| LemonbarClose.NoKillWithoutPermission | lemonpy/lemonbar.py:148-157 | Without `kill` no kill is ever sent, and a failed terminate window raises. |
| LemonbarClose.StubbornProcess | lemonpy/lemonbar.py:148-157 | A process that never exits makes `close()` raise after one full window of polls. `close(kill=True)` raises after two. |
| LemonbarClose.CloseAfterExit | lemonpy/lemonbar.py:148 | Once the exit has been seen, `close` is a single poll and returns. |
| LemonbarClose.Del | lemonpy/lemonbar.py:113-119 | `__del__` never raises. It does what the default `close()` does and never sends kill. |
| Ipc.CommandOfValue | lemonpy/ipc.py:30-34 | A member exists exactly for the values 1 to 4, and it carries the value asked for. |
| Ipc.CommandOfName | lemonpy/ipc.py:30-34 | A member found by name carries that name. |
| Ipc.CommandKinds | lemonpy/ipc.py:30-34 | The four kinds have distinct values in 1..4 and distinct names. Each kind is recovered from its value and from its name. |
| Ipc.Join | lemonpy/ipc.py:38 | The joined path ends with the name. An absolute name replaces the directory. Otherwise the directory is followed by the name. A `/` goes between them exactly when the directory is non-empty and does not already end in `/`. |
| Ipc.JoinTrailingSeparator | lemonpy/ipc.py:38 | Joining onto `a/` gives the same path as joining onto `a`. |
| Ipc.SocketPath | lemonpy/ipc.py:37-41 | Raises `SocketExists` iff the check is requested and the joined path exists. Otherwise it returns the joined path. The set of existing paths matters only when the check is requested. |
| Ipc.UpdateMessage | lemonpy/ipc.py:49-50 | The client message has exactly the keys `cmd`, `bar` and `content`. `cmd` names the UPDATE kind, and the other two carry the arguments. |
| Ipc.UpdatePayload | lemonpy/ipc.py:49-57 | The bytes `_send` writes are non-empty, and they decode to exactly the client's UPDATE message. |
| Ipc.Open | lemonpy/ipc.py:63-75 | Server construction fails with `SocketExists` iff the joined socket path, compared as a string, exists once the directory exists. Otherwise the directory and the bound socket path exist, and the server starts running with an empty queue. |
| Ipc.SecondServerRefused | lemonpy/ipc.py:72-74 | A second server on the same socket name is refused while the first one's socket exists. |
| Ipc.Receive | lemonpy/ipc.py:94-106 | A running server appends the first at most 1024 received bytes to the back of the queue, and only if they are non-empty. Earlier entries and all other state are unchanged. A payload of at most 1024 bytes is queued intact. |
| Ipc.Handle | lemonpy/ipc.py:111-113 | An undecodable payload raises the decode error and makes no call. A missing `bar` key raises `KeyError('bar')` and makes no call. With `bar` present and `content` missing, it raises `KeyError('content')` and makes no call. A payload with both keys does exactly what the manager's `update_bar(bar, content)` does, with the same calls and the same error. |
| Ipc.HandleIgnoresCmd | lemonpy/ipc.py:112-113 | Changing the `cmd` field of a message never changes what dispatching it does. |
| Ipc.Dispatch | lemonpy/ipc.py:108-115 | An empty queue does nothing. Otherwise it removes exactly the front payload and makes that payload's calls. The worker survives iff handling the payload raised nothing; otherwise it dies with the raised error. |
| Ipc.Drain | lemonpy/ipc.py:108-115 | Dispatching until the queue is empty or the worker dies handles a front prefix of the queue, in order, and leaves the rest queued. Every handled payload but the last succeeded. The worker dies exactly when the last one failed. |
| Ipc.ClientUpdateReachesBar | lemonpy/ipc.py:49-113 | A client `update_bar(name, content)` whose payload is at most 1024 bytes, sent to a running server with an empty queue, for a name that resolves, is received and dispatched. It makes exactly one call, `update(content)` on the bar the name resolves to. Longer payloads are cut by `recv(1024)` at ipc.py:100. |
| Ipc.UpdatesApplyInOrder | lemonpy/ipc.py:100-113 | Two updates of one bar sent A then B, each payload at most 1024 bytes, are applied A then B, provided A's `update` returns normally. |
| Ipc.UpdateRaisesStopsLater | lemonpy/ipc.py:100-115 | If A's `update` raises, only A's call is made. The worker dies with that error, and B stays queued and is never applied. |
| Ipc.BadPayloadStopsDispatch | lemonpy/ipc.py:108-115 | Counterexample: an undecodable payload kills the worker with the decode error. An update queued behind it is never applied. |
| Ipc.DrainResilient | lemonpy/ipc.py:108-115 | The corrected loop handles every queued payload in order, whatever each one raises, and leaves the queue empty. |
| Ipc.ResilientDispatchSurvivesBadPayload | lemonpy/ipc.py:108-115 | With the corrected loop, an update queued behind an undecodable payload reaches its bar. |
| Ipc.Close | lemonpy/ipc.py:77-85 | Runs stop, then the two joins, then the manager's close, then removal of the socket if it exists. Each step happens once and nothing follows. If the manager's close raises, the socket file is not removed. The bar calls and the outcome are exactly those of the registry's fan-out close. On failure, the last call raised the error that escapes and every earlier call returned normally. |
| Ipc.StoppedServerIsInert | lemonpy/ipc.py:117-121 | Once `_run` is false, the receive and dispatch steps change nothing. |

## Left out

- Sockets and threads are not modelled. This covers `accept`, `recv`, `connect`, `send`, the 5-second timeouts, `queue.get(timeout=5)`, thread start (`run`) and `join`. Receive and dispatch are sequential steps with no interleavings.
- `run()` is not modelled. Steps are allowed once a server is open, so the `AttributeError` from `close()` without `run()` is not modelled either.
- Ipc.Receive: a stream socket's `recv(1024)` may return fewer bytes than were sent. The model reads exactly the first `min(len, 1024)` bytes.
- The `_send` connection failure (no server listening) is not modelled. The client's `_socket_path` call never raises, because it does not ask for the existence check.
- JSON and UTF-8 are an abstract `Codec`. Decoded values are strings only. A payload that is not a JSON object is treated like invalid JSON: both escape the loop, though Python raises `TypeError` for one and `ValueError` for the other.
- Process spawning is not modelled: `Popen`, `shutil.which` for the binary, and the OS signals themselves.
- LemonbarClose.Wait: the budget assumes each loop iteration takes exactly one sleep step. Real overhead can only lower the number of polls, and the model takes the budget as a parameter so any bound can be used.
- LemonbarClose.Close: one `budget` serves both the terminate and the kill window, as the single `timeout_s` does in the source. With real overhead the two windows can make different numbers of polls, which the model does not distinguish.
- Ipc.Open: paths are compared as plain strings, with no normalisation. So a socket name of `""` or `"."`, whose joined path names the directory itself, does not raise `SocketExists` here, though `os.path.exists` sees the directory. The `FileNotFoundError` that `os.mkdir` raises for a missing parent directory is not modelled. `directory` is the already-resolved directory, because `lemonpy_dir or default_lemonpy_dir()` (ipc.py:64) is not modelled.
- Floating-point time is replaced by the poll budget; `PollBudget` relates it to exact real arithmetic.
- `uuid.uuid4()` is replaced by a counter.
- `default_lemonpy_dir` is not modelled, because it probes the environment and the file system.
- The exception classes duplicated across `common.py`, `exceptions.py` and `lemonbar.py` are one datatype. `OptionError` and `SocketDoesNotExist` are never raised, so they are left out.
- The message text of every error is left out.
- Registry.RegisterById: the `AlreadyManaged` message at server.py:62 reads `bar.bar_pid`, an attribute `Lemonbar` does not have. For a real `Lemonbar`, building that message raises `AttributeError`, so `AlreadyManaged` is never raised. The model gives the `AlreadyManaged` outcome, as for a bar object that has the attribute. The name leak of `register` happens either way.
- LemonbarClose.Close: `hasProc = false` stands for a falsy `_proc`, which the source never produces once `__init__` has started the process at lemonbar.py:111. The one process-less object is an `__init__` that failed before that line. There `self._proc` is unset, `close()` raises `AttributeError` at lemonbar.py:148, and `__del__` does not catch it; Python reports it as an ignored exception. That path is not modelled.
- The unused `close_owned_bars` parameter of the registry's `close` is left out.
- `Lemonbar` defines no `update` method, and any bar's methods may raise. So a bar's `update` and `close` are the `Responder` oracle, not `LemonbarClose.Close`.
- Settings are strings or booleans. A Python `int` value, which would make the string concatenation raise `TypeError`, is not modelled.
- `smoketest.py` is a demo script and is not part of this model.

## Findings

| source | as written | input that shows it | evidently intended | confidence | as-written member | corrected member |
|---|---|---|---|---|---|---|
| lemonpy/server.py:55-58 | The name is bound to a fresh id before the managed check. An `AlreadyManaged` failure leaves the name bound to an id with no bar. | Bar 7 already managed: `register("top", 7)` fails. `register("top", 8)` then fails with `DuplicateBarId`, and `update_bar("top", …)` fails as not managed. | A failed `register` leaves the registry unchanged. | medium, not executed | Registry.RegisterLeaksName | Registry.RegisterAtomic |
| lemonpy/ipc.py:108-115 | Only `queue.Empty` is caught, so a decode error, a missing key or a manager error ends the dispatch thread. | A payload `b"x"` queued before a valid UPDATE: the worker dies and the UPDATE is never applied. | A failing command fails alone, and the loop goes on to the next payload. | medium, not executed | Ipc.BadPayloadStopsDispatch | Ipc.DrainResilient |

=== FILE: errors.dfy ===
/**
 * The one error taxonomy of the model. The Python package declares the same
 * exception classes in several files; here each kind of failure appears once.
 */
module Errors {

  datatype Error =
    /** `LemonbarError`: the lemonbar process could not be stopped. */
    | LemonbarError
    /** `DuplicateBarId`: the name is already registered. */
    | DuplicateBarId
    /** `AlreadyManaged`: the bar object already has `managed` set. */
    | AlreadyManaged
    /** Plain `LemonpyError` from the registry: the name resolves to no bar. */
    | NotManaged
    /** `SocketExists`: the socket path is already present in the file system. */
    | SocketExists
    /** The payload is not UTF-8 encoded JSON describing an object (a `ValueError` or `TypeError`). */
    | DecodeError
    /** `KeyError`: the decoded object lacks a field the dispatcher indexes. */
    | MissingKey(key: string)
  {
    /**
     * The kinds that derive from a `LemonpyError` class. The package declares
     * several such classes (exceptions.py, common.py, lemonbar.py); this
     * taxonomy collapses them into one.
     */
    predicate IsLemonpyError() {
      !DecodeError? && !MissingKey?
    }
  }
}

=== FILE: ipc.dfy ===
/**
 * The command path of lemonpy/ipc.py, run one step at a time: a client
 * builds an UPDATE message and sends its encoding; the server's receive step
 * appends each non-empty payload to a FIFO queue; its dispatch step takes
 * the front payload, decodes it and calls `update_bar` on the manager.
 *
 * Sockets and threads are replaced by explicit state. The file system is the
 * set of paths that exist. JSON with UTF-8 is an abstract `Codec` whose
 * decoder inverts its encoder.
 */
module Ipc {
  import opened Wrappers
  import opened Errors
  import Registry

  /** The `Command` enum: four kinds with the values 1 to 4. */
  datatype Command = CloseBar | CloseServer | ListBars | Update {
    /** The member's `value`. */
    function Value(): nat {
      match this
      case CloseBar => 1
      case CloseServer => 2
      case ListBars => 3
      case Update => 4
    }

    /** The member's `name`, which the client puts in the `cmd` field. */
    function Name(): string {
      match this
      case CloseBar => "CLOSE_BAR"
      case CloseServer => "CLOSE_SERVER"
      case ListBars => "LIST_BARS"
      case Update => "UPDATE"
    }
  }

  /** `Command(value)`: the member with that value, if any. */
  function CommandOfValue(value: int): (r: Option<Command>)
    ensures r.Some? <==> 1 <= value <= 4
    ensures r.Some? ==> r.value.Value() == value
  {
    if value == 1 then Some(CloseBar)
    else if value == 2 then Some(CloseServer)
    else if value == 3 then Some(ListBars)
    else if value == 4 then Some(Update)
    else None
  }

  /** `Command[name]`: the member with that name, if any. */
  function CommandOfName(name: string): (r: Option<Command>)
    ensures r.Some? ==> r.value.Name() == name
  {
    if name == "CLOSE_BAR" then Some(CloseBar)
    else if name == "CLOSE_SERVER" then Some(CloseServer)
    else if name == "LIST_BARS" then Some(ListBars)
    else if name == "UPDATE" then Some(Update)
    else None
  }

  /** Exactly four kinds, with distinct values in 1..4, each recovered from its value and from its name. */
  lemma CommandKinds(c: Command, d: Command)
    ensures 1 <= c.Value() <= 4
    ensures c != d ==> c.Value() != d.Value() && c.Name() != d.Name()
    ensures CommandOfValue(c.Value()) == Some(c)
    ensures CommandOfName(c.Name()) == Some(c)
  {
  }

  type Path = string

  predicate IsAbsolute(path: Path) {
    |path| > 0 && path[0] == '/'
  }

  /** `os.path.join(directory, name)` on POSIX. */
  function Join(directory: Path, name: Path): (r: Path)
    ensures IsAbsolute(name) ==> r == name
    ensures !IsAbsolute(name) && (|directory| == 0 || directory[|directory| - 1] == '/') ==> r == directory + name
    ensures !IsAbsolute(name) && 0 < |directory| && directory[|directory| - 1] != '/' ==> r == directory + "/" + name
    ensures |name| <= |r| && r[|r| - |name|..] == name
  {
    if IsAbsolute(name) then name
    else if |directory| == 0 || directory[|directory| - 1] == '/' then directory + name
    else directory + "/" + name
  }

  /** A trailing separator on the directory changes nothing: `join("a/", n) == join("a", n)`. */
  lemma JoinTrailingSeparator(directory: Path, name: Path)
    requires 0 < |directory| && directory[|directory| - 1] != '/'
    ensures Join(directory + "/", name) == Join(directory, name)
  {
  }

  /**
   * `_socket_path(directory, name, raise_if_exists)`: the joined path; it
   * raises `SocketExists` only when asked to and the path exists.
   */
  function SocketPath(directory: Path, name: Path, raiseIfExists: bool, files: set<Path>): (r: Result<Path, Error>)
    ensures r.Err? <==> raiseIfExists && Join(directory, name) in files
    ensures r.Err? ==> r.error == SocketExists
    ensures r.Ok? ==> r.value == Join(directory, name)
  {
    var addr := Join(directory, name);
    if raiseIfExists && addr in files then Err(SocketExists) else Ok(addr)
  }

  newtype byte = x: int | 0 <= x < 256

  type Bytes = seq<byte>

  /** A decoded JSON object whose values are strings. */
  type Message = map<string, string>

  /**
   * `json.dumps(...).encode('utf-8')` and `json.loads(....decode('utf-8'))`.
   * `decode` gives `None` for bytes that are not the encoding of an object.
   */
  datatype Codec = Codec(encode: Message -> Bytes, decode: Bytes -> Option<Message>)

  /** The decoder inverts the encoder, and an encoding is never empty (it holds at least `{}`). */
  ghost predicate ValidCodec(codec: Codec) {
    forall m :: codec.decode(codec.encode(m)) == Some(m) && 0 < |codec.encode(m)|
  }

  /** The message `LemonpyClient.update_bar(name, content)` builds. */
  function UpdateMessage(name: string, content: string): (r: Message)
    ensures r.Keys == {"cmd", "bar", "content"}
    ensures CommandOfName(r["cmd"]) == Some(Update)
    ensures r["bar"] == name && r["content"] == content
  {
    map["cmd" := Update.Name(), "bar" := name, "content" := content]
  }

  /** The bytes `_send` writes for `update_bar(name, content)`. */
  function UpdatePayload(codec: Codec, name: string, content: string): (r: Bytes)
    ensures ValidCodec(codec) ==> 0 < |r| && codec.decode(r) == Some(UpdateMessage(name, content))
  {
    codec.encode(UpdateMessage(name, content))
  }

  /** The most bytes one `conn.recv` call returns. */
  const MaxRecv: nat := 1024

  /** Whether the dispatch thread still runs, or died from the error that escaped it. */
  datatype Worker = Alive | Died(error: Error)

  datatype Server = Server(
    /** `_socket_path`. */
    path: Path,
    /** `_cmd_queue`, front first. */
    queue: seq<Bytes>,
    /** `_run`. */
    running: bool,
    worker: Worker,
    manager: Registry.Manager)

  /** The file system after `LemonpyServer(...)`, and the server or the error it raised. */
  datatype Opened = Opened(files: set<Path>, server: Result<Server, Error>)

  /**
   * `LemonpyServer.__init__`: create the directory if missing, refuse an
   * existing socket path, bind (which creates the path), start with an
   * empty queue and `_run` true.
   */
  function Open(directory: Path, name: Path, manager: Registry.Manager, files: set<Path>): (r: Opened)
    ensures r.server.Err? <==> Join(directory, name) in files + {directory}
    ensures r.server.Err? ==> r.server.error == SocketExists && r.files == files + {directory}
    ensures r.server.Ok? ==>
      && r.files == files + {directory, Join(directory, name)}
      && r.server.value == Server(Join(directory, name), [], true, Alive, manager)
  {
    var made := if directory in files then files else files + {directory};
    assert made == files + {directory};
    match SocketPath(directory, name, true, made)
    case Err(e) => Opened(made, Err(e))
    case Ok(path) => Opened(made + {path}, Ok(Server(path, [], true, Alive, manager)))
  }

  /** A second server on the same socket name fails while the first one's socket exists. */
  lemma SecondServerRefused(directory: Path, name: Path, m1: Registry.Manager, m2: Registry.Manager, files: set<Path>)
    requires Open(directory, name, m1, files).server.Ok?
    ensures Open(directory, name, m2, Open(directory, name, m1, files).files).server == Err(SocketExists)
  {
  }

  function Min(a: nat, b: nat): nat {
    if a <= b then a else b
  }

  /**
   * One iteration of `_receive_command` for a connection that sent `sent`:
   * read at most `MaxRecv` bytes, and queue them at the back unless empty.
   */
  function Receive(s: Server, sent: Bytes): (r: Server)
    ensures r.path == s.path && r.running == s.running && r.worker == s.worker && r.manager == s.manager
    ensures !s.running || |sent| == 0 ==> r == s
    ensures s.running && 0 < |sent| ==>
      && |r.queue| == |s.queue| + 1
      && r.queue[..|s.queue|] == s.queue
      && r.queue[|s.queue|] == sent[..Min(|sent|, MaxRecv)]
    ensures s.running && 0 < |sent| <= MaxRecv ==> r.queue == s.queue + [sent]
  {
    if !s.running then s
    else
      var cmd := sent[..Min(|sent|, MaxRecv)];
      assert |sent| <= MaxRecv ==> cmd == sent;
      if |cmd| > 0 then s.(queue := s.queue + [cmd]) else s
  }

  /**
   * The body of one `_handle_command` iteration for a dequeued payload:
   * decode it and call `update_bar(decoded['bar'], decoded['content'])`.
   * The `cmd` field is never read.
   */
  function Handle(m: Registry.Manager, codec: Codec, respond: Registry.Responder, payload: Bytes): (r: Registry.Effect)
    ensures codec.decode(payload).None? ==> r == Registry.Effect([], Fail(DecodeError))
    ensures codec.decode(payload).Some? && "bar" !in codec.decode(payload).value ==> r == Registry.Effect([], Fail(MissingKey("bar")))
    ensures codec.decode(payload).Some? && "bar" in codec.decode(payload).value && "content" !in codec.decode(payload).value ==>
      r == Registry.Effect([], Fail(MissingKey("content")))
    ensures codec.decode(payload).Some? && "bar" in codec.decode(payload).value && "content" in codec.decode(payload).value ==>
      r == Registry.UpdateBar(m, codec.decode(payload).value["bar"], codec.decode(payload).value["content"], respond)
  {
    match codec.decode(payload)
    case None => Registry.Effect([], Fail(DecodeError))
    case Some(decoded) =>
      if "bar" !in decoded then Registry.Effect([], Fail(MissingKey("bar")))
      else if "content" !in decoded then Registry.Effect([], Fail(MissingKey("content")))
      else Registry.UpdateBar(m, decoded["bar"], decoded["content"], respond)
  }

  /** Dispatch ignores `cmd`: a message of any kind with the same `bar` and `content` has the same effect. */
  lemma HandleIgnoresCmd(m: Registry.Manager, codec: Codec, respond: Registry.Responder, msg: Message, cmd: string)
    requires ValidCodec(codec)
    ensures Handle(m, codec, respond, codec.encode(msg)) == Handle(m, codec, respond, codec.encode(msg["cmd" := cmd]))
  {
    var other := msg["cmd" := cmd];
    assert codec.decode(codec.encode(msg)) == Some(msg);
    assert codec.decode(codec.encode(other)) == Some(other);
    assert ("bar" in msg <==> "bar" in other) && ("content" in msg <==> "content" in other);
  }

  /** The server after one dispatch step, and the calls that step made into bars. */
  datatype Dispatched = Dispatched(server: Server, calls: seq<Registry.Call>)

  /**
   * One iteration of `_handle_command`: with an empty queue nothing happens
   * (`queue.Empty` is caught); otherwise the front payload is removed and
   * handled, and an error escaping the handling ends the thread.
   */
  function Dispatch(s: Server, codec: Codec, respond: Registry.Responder): (r: Dispatched)
    ensures r.server.path == s.path && r.server.running == s.running && r.server.manager == s.manager
    ensures !s.running || s.worker.Died? || |s.queue| == 0 ==> r == Dispatched(s, [])
    ensures s.running && s.worker.Alive? && 0 < |s.queue| ==>
      && r.server.queue == s.queue[1..]
      && r.calls == Handle(s.manager, codec, respond, s.queue[0]).calls
      && (r.server.worker.Alive? <==> Handle(s.manager, codec, respond, s.queue[0]).outcome.Pass?)
      && (r.server.worker.Died? ==> Handle(s.manager, codec, respond, s.queue[0]).outcome == Fail(r.server.worker.error))
  {
    if !s.running || s.worker.Died? || |s.queue| == 0 then Dispatched(s, [])
    else
      var effect := Handle(s.manager, codec, respond, s.queue[0]);
      var worker := match effect.outcome case Pass => Alive case Fail(e) => Died(e);
      Dispatched(s.(queue := s.queue[1..], worker := worker), effect.calls)
  }

  /** The calls that handling `payloads` one after another makes, regardless of errors. */
  function CallsOf(m: Registry.Manager, codec: Codec, respond: Registry.Responder, payloads: seq<Bytes>): seq<Registry.Call> {
    if |payloads| == 0 then []
    else Handle(m, codec, respond, payloads[0]).calls + CallsOf(m, codec, respond, payloads[1..])
  }

  /** Handling the first `k` payloads is handling the front one, then the next `k - 1`. */
  lemma CallsOfCons(m: Registry.Manager, codec: Codec, respond: Registry.Responder, q: seq<Bytes>, k: nat)
    requires 0 < k <= |q|
    ensures CallsOf(m, codec, respond, q[..k]) == Handle(m, codec, respond, q[0]).calls + CallsOf(m, codec, respond, q[1..][..k - 1])
  {
    assert q[..k][1..] == q[1..][..k - 1];
  }

  /**
   * Dispatch steps until the queue is empty or the thread dies. The payloads
   * are handled front first: the calls are those of the handled prefix, every
   * payload but the last handled one succeeded, and the thread dies exactly
   * when the last one failed.
   */
  function Drain(s: Server, codec: Codec, respond: Registry.Responder): (r: Dispatched)
    requires s.running && s.worker.Alive?
    ensures r.server.path == s.path && r.server.running && r.server.manager == s.manager
    ensures |r.server.queue| <= |s.queue| && r.server.queue == s.queue[|s.queue| - |r.server.queue|..]
    ensures r.calls == CallsOf(s.manager, codec, respond, s.queue[..|s.queue| - |r.server.queue|])
    ensures r.server.worker.Alive? ==> r.server.queue == []
    ensures forall i :: 0 <= i < |s.queue| - |r.server.queue| - (if r.server.worker.Died? then 1 else 0) ==>
      Handle(s.manager, codec, respond, s.queue[i]).outcome.Pass?
    ensures r.server.worker.Died? ==>
      && |r.server.queue| < |s.queue|
      && Handle(s.manager, codec, respond, s.queue[|s.queue| - |r.server.queue| - 1]).outcome == Fail(r.server.worker.error)
    decreases |s.queue|
  {
    if |s.queue| == 0 then Dispatched(s, [])
    else
      var step := Dispatch(s, codec, respond);
      if step.server.worker.Died? then
        assert s.queue[..1] == [s.queue[0]];
        step
      else
        var rest := Drain(step.server, codec, respond);
        CallsOfCons(s.manager, codec, respond, s.queue, |s.queue| - |rest.server.queue|);
        assert s.queue[1..][|s.queue| - 1 - |rest.server.queue|..] == s.queue[|s.queue| - |rest.server.queue|..];
        Dispatched(rest.server, step.calls + rest.calls)
  }

  /** What one client `update_bar` delivers to a bar, once received and dispatched. */
  lemma ClientUpdateReachesBar(s: Server, codec: Codec, respond: Registry.Responder, name: string, content: string)
    requires ValidCodec(codec)
    requires s.running && s.worker.Alive? && s.queue == []
    requires |UpdatePayload(codec, name, content)| <= MaxRecv
    requires Registry.BarFromName(s.manager, name).Ok?
    ensures Drain(Receive(s, UpdatePayload(codec, name, content)), codec, respond).calls
      == [Registry.Call(Registry.BarFromName(s.manager, name).value, Registry.Update(content))]
  {
    var payload := UpdatePayload(codec, name, content);
    assert codec.decode(payload) == Some(UpdateMessage(name, content));
    var received := Receive(s, payload);
    assert received.queue == [payload];
    assert CallsOf(s.manager, codec, respond, [payload]) == Handle(s.manager, codec, respond, payload).calls;
  }

  /** Two updates of the same bar, sent A then B, are applied A then B. */
  lemma UpdatesApplyInOrder(s: Server, codec: Codec, respond: Registry.Responder, name: string, a: string, b: string)
    requires ValidCodec(codec)
    requires s.running && s.worker.Alive? && s.queue == []
    requires |UpdatePayload(codec, name, a)| <= MaxRecv && |UpdatePayload(codec, name, b)| <= MaxRecv
    requires Registry.BarFromName(s.manager, name).Ok?
    requires respond(Registry.Call(Registry.BarFromName(s.manager, name).value, Registry.Update(a))).None?
    ensures
      var bar := Registry.BarFromName(s.manager, name).value;
      Drain(Receive(Receive(s, UpdatePayload(codec, name, a)), UpdatePayload(codec, name, b)), codec, respond).calls
        == [Registry.Call(bar, Registry.Update(a)), Registry.Call(bar, Registry.Update(b))]
  {
    var pa, pb := UpdatePayload(codec, name, a), UpdatePayload(codec, name, b);
    assert codec.decode(pa) == Some(UpdateMessage(name, a));
    assert codec.decode(pb) == Some(UpdateMessage(name, b));
    var received := Receive(Receive(s, pa), pb);
    assert received.queue == [pa, pb];
    var d := Drain(received, codec, respond);
    assert Handle(s.manager, codec, respond, pa).outcome.Pass?;
    assert received.queue[..2] == [pa, pb];
    assert CallsOf(s.manager, codec, respond, [pa, pb]) == Handle(s.manager, codec, respond, pa).calls + CallsOf(s.manager, codec, respond, [pb]);
  }

  /** If A's update raises, the worker dies with that error and B, queued behind it, is never applied. */
  lemma UpdateRaisesStopsLater(s: Server, codec: Codec, respond: Registry.Responder, name: string, a: string, b: string, e: Error)
    requires ValidCodec(codec)
    requires s.running && s.worker.Alive? && s.queue == []
    requires |UpdatePayload(codec, name, a)| <= MaxRecv && |UpdatePayload(codec, name, b)| <= MaxRecv
    requires Registry.BarFromName(s.manager, name).Ok?
    requires respond(Registry.Call(Registry.BarFromName(s.manager, name).value, Registry.Update(a))) == Some(e)
    ensures
      var d := Drain(Receive(Receive(s, UpdatePayload(codec, name, a)), UpdatePayload(codec, name, b)), codec, respond);
      && d.calls == [Registry.Call(Registry.BarFromName(s.manager, name).value, Registry.Update(a))]
      && d.server.worker == Died(e)
      && d.server.queue == [UpdatePayload(codec, name, b)]
  {
    var pa, pb := UpdatePayload(codec, name, a), UpdatePayload(codec, name, b);
    var received := Receive(Receive(s, pa), pb);
    assert received.queue == [pa, pb];
    assert Handle(s.manager, codec, respond, pa).outcome == Fail(e);
  }

  /**
   * A payload that does not decode ends the dispatch thread: an update
   * queued behind it is never applied.
   */
  lemma BadPayloadStopsDispatch(s: Server, codec: Codec, respond: Registry.Responder, garbage: Bytes, name: string, content: string)
    requires ValidCodec(codec)
    requires s.running && s.worker.Alive? && s.queue == []
    requires 0 < |garbage| <= MaxRecv && codec.decode(garbage).None?
    requires |UpdatePayload(codec, name, content)| <= MaxRecv
    ensures
      var d := Drain(Receive(Receive(s, garbage), UpdatePayload(codec, name, content)), codec, respond);
      d.calls == [] && d.server.worker == Died(DecodeError) && d.server.queue == [UpdatePayload(codec, name, content)]
  {
    var p := UpdatePayload(codec, name, content);
    var received := Receive(Receive(s, garbage), p);
    assert received.queue == [garbage, p];
  }

  /**
   * The corrected dispatch loop: an error ends only the handling of its own
   * payload, and the loop goes on with the next one.
   */
  function DrainResilient(s: Server, codec: Codec, respond: Registry.Responder): (r: Dispatched)
    requires s.running && s.worker.Alive?
    ensures r.server == s.(queue := [])
    ensures r.calls == CallsOf(s.manager, codec, respond, s.queue)
    decreases |s.queue|
  {
    if |s.queue| == 0 then Dispatched(s, [])
    else
      var effect := Handle(s.manager, codec, respond, s.queue[0]);
      var rest := DrainResilient(s.(queue := s.queue[1..]), codec, respond);
      Dispatched(rest.server, effect.calls + rest.calls)
  }

  /** With the resilient loop the update behind a bad payload is applied. */
  lemma ResilientDispatchSurvivesBadPayload(s: Server, codec: Codec, respond: Registry.Responder, garbage: Bytes, name: string, content: string)
    requires ValidCodec(codec)
    requires s.running && s.worker.Alive? && s.queue == []
    requires 0 < |garbage| <= MaxRecv && codec.decode(garbage).None?
    requires |UpdatePayload(codec, name, content)| <= MaxRecv
    requires Registry.BarFromName(s.manager, name).Ok?
    ensures
      var d := DrainResilient(Receive(Receive(s, garbage), UpdatePayload(codec, name, content)), codec, respond);
      d.calls == [Registry.Call(Registry.BarFromName(s.manager, name).value, Registry.Update(content))]
  {
    var p := UpdatePayload(codec, name, content);
    assert codec.decode(p) == Some(UpdateMessage(name, content));
    var received := Receive(Receive(s, garbage), p);
    assert received.queue == [garbage, p];
    assert CallsOf(s.manager, codec, respond, [garbage, p]) == [] + CallsOf(s.manager, codec, respond, [p]);
  }

  /** The steps of `LemonpyServer.close`, in order. */
  datatype CloseEvent = Stop | JoinReceiver | JoinWorker | CloseManager | RemoveSocket

  datatype Closed = Closed(
    events: seq<CloseEvent>,
    server: Server,
    files: set<Path>,
    barCalls: seq<Registry.Call>,
    outcome: Outcome<Error>)

  /**
   * `LemonpyServer.close`: stop, join the receive thread, join the worker
   * thread, close the manager, then remove the socket path if it exists. An
   * error from the manager's `close` propagates and the socket stays.
   */
  function Close(s: Server, files: set<Path>, respond: Registry.Responder): (r: Closed)
    ensures !r.server.running && r.server.manager == s.manager && r.server.path == s.path
    ensures |r.events| >= 4 && r.events[..4] == [Stop, JoinReceiver, JoinWorker, CloseManager]
    ensures |r.events| <= 5 && (|r.events| == 5 ==> r.events[4] == RemoveSocket)
    ensures r.outcome.Fail? ==> r.events == [Stop, JoinReceiver, JoinWorker, CloseManager] && r.files == files
    ensures r.outcome.Pass? ==> r.files == files - {s.path}
    ensures r.outcome.Pass? ==> (RemoveSocket in r.events <==> s.path in files)
    ensures r.barCalls == Registry.CloseAll(s.manager, respond).calls
    ensures r.outcome == Registry.CloseAll(s.manager, respond).outcome
    ensures |r.barCalls| <= |s.manager.bars|
    ensures forall i :: 0 <= i < |r.barCalls| ==> r.barCalls[i] == Registry.Call(s.manager.bars[i].1, Registry.Close)
    ensures r.outcome.Pass? <==> |r.barCalls| == |s.manager.bars| && forall i :: 0 <= i < |r.barCalls| ==> respond(r.barCalls[i]).None?
    ensures r.outcome.Fail? ==>
      && 0 < |r.barCalls|
      && respond(r.barCalls[|r.barCalls| - 1]) == Some(r.outcome.error)
      && forall i :: 0 <= i < |r.barCalls| - 1 ==> respond(r.barCalls[i]).None?
  {
    var stopped := s.(running := false);
    var events := [Stop, JoinReceiver, JoinWorker, CloseManager];
    var closing := Registry.CloseAll(s.manager, respond);
    if closing.outcome.Fail? then Closed(events, stopped, files, closing.calls, closing.outcome)
    else if s.path in files then Closed(events + [RemoveSocket], stopped, files - {s.path}, closing.calls, Pass)
    else Closed(events, stopped, files, closing.calls, Pass)
  }

  /** Once stopped, the server neither receives nor dispatches. */
  lemma StoppedServerIsInert(s: Server, codec: Codec, respond: Registry.Responder, sent: Bytes)
    requires !s.running
    ensures Receive(s, sent) == s
    ensures Dispatch(s, codec, respond) == Dispatched(s, [])
  {
  }
}

=== FILE: lemonbar_close.dfy ===
/**
 * The shutdown state machine of `Lemonbar.close` in lemonpy/lemonbar.py:
 * terminate, wait, optionally kill and wait again, raising `LemonbarError`
 * when the process outlives the last window.
 *
 * The process is an oracle answering each `poll()`, and wall-clock time is a
 * poll budget: the number of polls one wait window allows.
 */
module LemonbarClose {
  import opened Wrappers
  import opened Errors

  /**
   * What `_proc.poll()` reports during one `close` call: `poll(i)` holds when
   * the i-th poll of the call (counting from 0) sees the process exited.
   */
  type PollOracle = nat -> bool

  /** The observable steps of `close`, in the order they happen. */
  datatype Event = Poll(exited: bool) | Sleep | Terminate | Kill

  /** One `_wait` window: its events, whether it saw the exit, and how many polls it made. */
  datatype Window = Window(events: seq<Event>, closed: bool, polls: nat)

  /** The end of one `close` call: its events, and whether it returned or raised. */
  datatype CloseRun = CloseRun(events: seq<Event>, outcome: Outcome<Error>)

  /** `close`'s default `timeout_s`, `DEFAULT_PROC_TERMINATE_WAIT_S`. */
  const DefaultTerminateWait: real := 1.0

  /** `_wait` sleeps `timeout_s / 10.0` after each poll that sees the process running. */
  const SleepDivisor: nat := 10

  /** Some poll with index in `[from, from + n)` sees the process exited. */
  ghost predicate ExitWithin(poll: PollOracle, from: nat, n: nat) {
    exists k :: from <= k < from + n && poll(k)
  }

  function CountPolls(events: seq<Event>): nat {
    if |events| == 0 then 0 else (if events[0].Poll? then 1 else 0) + CountPolls(events[1..])
  }

  lemma {:induction false} CountsAppend(a: seq<Event>, b: seq<Event>)
    ensures CountPolls(a + b) == CountPolls(a) + CountPolls(b)
  {
    if |a| > 0 {
      assert (a + b)[1..] == a[1..] + b;
      CountsAppend(a[1..], b);
    } else {
      assert a + b == b;
    }
  }

  /**
   * The number of polls one `_wait(timeout_s)` window allows when every
   * iteration takes exactly its sleep step: the loop runs while
   * `k * (timeout_s / 10) < timeout_s`, which is ten times for a positive
   * timeout and never otherwise.
   */
  function PollBudget(timeout: real): nat {
    if timeout > 0.0 then SleepDivisor else 0
  }

  /** `PollBudget` is the first loop iteration at which the elapsed time reaches the timeout. */
  lemma PollBudgetMatchesClock(timeout: real, k: nat)
    ensures k < PollBudget(timeout) ==> (k as real) * (timeout / SleepDivisor as real) < timeout
    ensures k == PollBudget(timeout) ==> !((k as real) * (timeout / SleepDivisor as real) < timeout)
  {
    var step := timeout / 10.0;
    assert timeout == 10.0 * step;
    if timeout > 0.0 && k < 10 {
      assert (k as real) * step < 10.0 * step;
    }
  }

  /** A window whose first poll sees the process running saw the exit iff the rest of it did. */
  lemma ExitWithinStep(poll: PollOracle, from: nat, budget: nat)
    requires 0 < budget && !poll(from)
    ensures ExitWithin(poll, from, budget) <==> ExitWithin(poll, from + 1, budget - 1)
  {
    if ExitWithin(poll, from, budget) {
      var k :| from <= k < from + budget && poll(k);
      assert from + 1 <= k;
    }
    if ExitWithin(poll, from + 1, budget - 1) {
      var k :| from + 1 <= k < from + budget && poll(k);
      assert from <= k < from + budget;
    }
  }

  /**
   * `_wait`: poll up to `budget` times starting at poll index `from`,
   * sleeping after each poll that sees the process running. It reports
   * whether some poll saw the exit; `False` is what makes `_wait` raise.
   */
  function Wait(poll: PollOracle, from: nat, budget: nat): (w: Window)
    ensures w.closed <==> ExitWithin(poll, from, budget)
    ensures w.polls <= budget
    ensures !w.closed ==> w.polls == budget
    ensures w.closed ==> 1 <= w.polls && poll(from + w.polls - 1)
    ensures forall k :: from <= k < from + w.polls - (if w.closed then 1 else 0) ==> !poll(k)
    ensures CountPolls(w.events) == w.polls
    ensures forall i :: 0 <= i < |w.events| ==> w.events[i].Poll? || w.events[i].Sleep?
    decreases budget
  {
    if budget == 0 then Window([], false, 0)
    else if poll(from) then Window([Poll(true)], true, 1)
    else
      var rest := Wait(poll, from + 1, budget - 1);
      CountsAppend([Poll(false), Sleep], rest.events);
      ExitWithinStep(poll, from, budget);
      Window([Poll(false), Sleep] + rest.events, rest.closed, rest.polls + 1)
  }

  /** A wait window holds only polls and sleeps, so it sends no signal. */
  lemma WindowSendsNothing(events: seq<Event>)
    requires forall i :: 0 <= i < |events| ==> events[i].Poll? || events[i].Sleep?
    ensures Terminate !in events && Kill !in events
  {
  }

  /** A kill placed between two kill-free runs of events is the only one, preceded by exactly `polls` polls. */
  lemma KillOnceAfter(before: seq<Event>, after: seq<Event>, polls: nat)
    requires 2 <= |before| && Kill !in before && Kill !in after && CountPolls(before) == polls
    ensures var events := before + [Kill] + after;
      exists j :: (2 <= j < |events| && events[j] == Kill
        && Kill !in events[..j] && Kill !in events[j + 1..] && CountPolls(events[..j]) == polls)
  {
    var events := before + [Kill] + after;
    assert events[..|before|] == before && events[|before| + 1..] == after;
  }

  /**
   * `close(kill, timeout_s)` with `budget` polls per wait window. With no
   * process, or a first poll that already sees the exit, nothing is sent.
   * Otherwise `_try_and_wait(terminate)` runs; if its window ends without
   * the exit, a `kill` request escalates to `_try_and_wait(kill)` in a second
   * window, and without one the `LemonbarError` is re-raised. A kill goes
   * out at most once, right after the initial poll and the whole terminate
   * window.
   */
  function Close(hasProc: bool, poll: PollOracle, kill: bool, budget: nat): (r: CloseRun)
    ensures r.outcome.Fail? ==> r.outcome.error == LemonbarError
    ensures !hasProc || poll(0) ==> r.outcome == Pass && Terminate !in r.events && Kill !in r.events
    ensures hasProc && !poll(0) ==> 2 <= |r.events| && r.events[..2] == [Poll(false), Terminate] && Terminate !in r.events[2..]
    ensures Kill in r.events <==> hasProc && !poll(0) && kill && !ExitWithin(poll, 1, budget)
    ensures Kill in r.events ==>
      exists j :: (2 <= j < |r.events| && r.events[j] == Kill
        && Kill !in r.events[..j] && Kill !in r.events[j + 1..] && CountPolls(r.events[..j]) == 1 + budget)
    ensures r.outcome == Pass <==>
      || !hasProc || poll(0)
      || ExitWithin(poll, 1, budget)
      || (kill && ExitWithin(poll, 1 + budget, budget))
    ensures CountPolls(r.events) <= 1 + 2 * budget
    ensures r.outcome.Fail? ==> CountPolls(r.events) == if kill then 1 + 2 * budget else 1 + budget
  {
    if !hasProc then CloseRun([], Pass)
    else if poll(0) then CloseRun([Poll(true)], Pass)
    else TerminateThenKill(poll, kill, budget)
  }

  /**
   * The part of `close` after a first poll that sees the process running:
   * `_try_and_wait(terminate)`, then, when that window fails, either the
   * re-raised error or `_try_and_wait(kill)`.
   */
  function TerminateThenKill(poll: PollOracle, kill: bool, budget: nat): (r: CloseRun)
    ensures r.outcome.Fail? ==> r.outcome.error == LemonbarError
    ensures 2 <= |r.events| && r.events[..2] == [Poll(false), Terminate] && Terminate !in r.events[2..]
    ensures Kill in r.events <==> kill && !ExitWithin(poll, 1, budget)
    ensures Kill in r.events ==>
      exists j :: (2 <= j < |r.events| && r.events[j] == Kill
        && Kill !in r.events[..j] && Kill !in r.events[j + 1..] && CountPolls(r.events[..j]) == 1 + budget)
    ensures r.outcome == Pass <==> ExitWithin(poll, 1, budget) || (kill && ExitWithin(poll, 1 + budget, budget))
    ensures CountPolls(r.events) <= 1 + 2 * budget
    ensures r.outcome.Fail? ==> CountPolls(r.events) == if kill then 1 + 2 * budget else 1 + budget
  {
    var terminated := Wait(poll, 1, budget);
    var first := [Poll(false), Terminate] + terminated.events;
    CountsAppend([Poll(false), Terminate], terminated.events);
    WindowSendsNothing(terminated.events);
    assert first[..2] == [Poll(false), Terminate] && first[2..] == terminated.events;
    if terminated.closed then CloseRun(first, Pass)
    else if !kill then CloseRun(first, Fail(LemonbarError))
    else KillThenWait(poll, first, budget)
  }

  /**
   * `_try_and_wait(kill)` after the events `sent` of a failed terminate
   * window, which made `1 + budget` polls: one kill, then a second window.
   */
  function KillThenWait(poll: PollOracle, sent: seq<Event>, budget: nat): (r: CloseRun)
    requires 2 <= |sent| && sent[..2] == [Poll(false), Terminate] && Terminate !in sent[2..]
    requires Kill !in sent && CountPolls(sent) == 1 + budget
    ensures r.outcome.Fail? ==> r.outcome.error == LemonbarError
    ensures 2 <= |r.events| && r.events[..2] == [Poll(false), Terminate] && Terminate !in r.events[2..]
    ensures Kill in r.events
    ensures exists j :: (2 <= j < |r.events| && r.events[j] == Kill
      && Kill !in r.events[..j] && Kill !in r.events[j + 1..] && CountPolls(r.events[..j]) == 1 + budget)
    ensures r.outcome == Pass <==> ExitWithin(poll, 1 + budget, budget)
    ensures CountPolls(r.events) <= 1 + 2 * budget
    ensures r.outcome.Fail? ==> CountPolls(r.events) == 1 + 2 * budget
  {
    var killed := Wait(poll, 1 + budget, budget);
    WindowSendsNothing(killed.events);
    CountsAppend(sent, [Kill]);
    CountsAppend(sent + [Kill], killed.events);
    KillOnceAfter(sent, killed.events, 1 + budget);
    var events := sent + [Kill] + killed.events;
    assert events[..2] == [Poll(false), Terminate] && events[2..] == sent[2..] + [Kill] + killed.events;
    CloseRun(events, if killed.closed then Pass else Fail(LemonbarError))
  }

  /** Kill is only ever sent after a failed terminate window, and never without `kill`. */
  lemma NoKillWithoutPermission(hasProc: bool, poll: PollOracle, budget: nat)
    ensures Kill !in Close(hasProc, poll, false, budget).events
    ensures hasProc && !poll(0) && !ExitWithin(poll, 1, budget) ==>
      Close(hasProc, poll, false, budget) == CloseRun(Close(hasProc, poll, false, budget).events, Fail(LemonbarError))
  {
  }

  /**
   * A process that ignores both signals: `close(kill=False)` raises after one
   * full window of polls, `close(kill=True)` after two.
   */
  lemma StubbornProcess(budget: nat)
    ensures Close(true, _ => false, false, budget).outcome == Fail(LemonbarError)
    ensures CountPolls(Close(true, _ => false, false, budget).events) == 1 + budget
    ensures Close(true, _ => false, true, budget).outcome == Fail(LemonbarError)
    ensures CountPolls(Close(true, _ => false, true, budget).events) == 1 + 2 * budget
  {
    var poll: PollOracle := _ => false;
    assert !ExitWithin(poll, 1, budget) && !ExitWithin(poll, 1 + budget, budget);
  }

  /** `close` is idempotent: once a poll sees the exit, another `close` sends nothing and returns. */
  lemma CloseAfterExit(poll: PollOracle, kill: bool, budget: nat)
    requires poll(0)
    ensures Close(true, poll, kill, budget) == CloseRun([Poll(true)], Pass)
  {
  }

  /**
   * `__del__`: `close()` with the default arguments, catching every
   * `LemonpyError`, so destruction never raises.
   */
  function Del(hasProc: bool, poll: PollOracle): (r: CloseRun)
    ensures r.outcome == Pass
    ensures r.events == Close(hasProc, poll, false, PollBudget(DefaultTerminateWait)).events
    ensures Kill !in r.events
  {
    var closed := Close(hasProc, poll, false, PollBudget(DefaultTerminateWait));
    match closed.outcome
    case Fail(e) =>
      if e.IsLemonpyError() then CloseRun(closed.events, Pass) else closed
    case Pass => closed
  }
}

=== FILE: lemonbar_options.dfy ===
/**
 * The command-line flag builder of lemonpy/lemonbar.py: `_option_if_option`,
 * `_option_flag` and `Lemonbar._build_cli_option_string` turn the optional
 * constructor settings into lemonbar flags, one per present setting, in a
 * fixed order.
 *
 * The partner of the builder is `Parse`, which reads a flag list back into
 * settings; `ParseBuildRoundTrip` shows nothing but the truth value of the
 * boolean switches is lost on the way.
 */
module LemonbarOptions {
  import opened Wrappers

  /** The settings of a `Lemonbar`; `None` is the Python default `None`. */
  datatype Config = Config(
    geometry: Option<string>,
    bottom: Option<bool>,
    forceDocking: Option<bool>,
    font: Option<string>,
    clickableAreas: Option<string>,
    permanent: Option<bool>,
    wmName: Option<string>,
    underlineWidth: Option<string>,
    bgColor: Option<string>,
    fgColor: Option<string>,
    verticalOffset: Option<string>,
    underlineColor: Option<string>)

  /** The switches, in the order `_build_cli_option_string` lists them. */
  const Switches: seq<string> := ["-g", "-b", "-d", "-f", "-a", "-p", "-n", "-u", "-B", "-F", "-o", "-U"]

  /** The switch a flag-list element carries: ` -s value` for a valued option, `-s` for a plain switch. */
  function SwitchOf(element: string): string {
    if |element| >= 4 && element[0] == ' ' && element[3] == ' ' then element[1..3] else element
  }

  /** The value a ` -s value` element carries. */
  function ValueOf(element: string): string {
    if |element| >= 4 then element[4..] else ""
  }

  /** `_option_if_option(switch, option)`: nothing for `None`, else the element ` switch option`. */
  function OptionIfOption(switch: string, option: Option<string>): (r: Option<string>)
    ensures r.None? <==> option.None?
    ensures r.Some? ==> |r.value| == |switch| + |option.value| + 2 && r.value[0] == ' '
    ensures r.Some? && |switch| == 2 ==> SwitchOf(r.value) == switch && ValueOf(r.value) == option.value
  {
    if option.None? then None
    else
      var element := [' '] + switch + [' '] + option.value;
      assert |switch| == 2 ==> element[1..3] == switch && element[4..] == option.value;
      Some(element)
  }

  /** `_option_flag(switch, arg)`: nothing for `None`, else the bare switch whatever the truth value. */
  function OptionFlag(switch: string, arg: Option<bool>): (r: Option<string>)
    ensures r.None? <==> arg.None?
    ensures r.Some? ==> r.value == switch
  {
    if arg.None? then None else Some(switch)
  }

  /** `_option_flag` emits the switch for `False` just as for `True`. */
  lemma OptionFlagIgnoresTruth(switch: string)
    ensures OptionFlag(switch, Some(false)) == OptionFlag(switch, Some(true)) == Some(switch)
  {
  }

  /** One constructor setting: a valued option or a boolean switch. */
  datatype Setting = Valued(value: Option<string>) | Flag(arg: Option<bool>)
  {
    predicate Given() {
      match this
      case Valued(v) => v.Some?
      case Flag(a) => a.Some?
    }
  }

  /** The settings in the order `_build_cli_option_string` lists them, position by position with `Switches`. */
  function Settings(c: Config): (r: seq<Setting>)
    ensures |r| == |Switches|
  {
    [ Valued(c.geometry), Flag(c.bottom), Flag(c.forceDocking), Valued(c.font),
      Valued(c.clickableAreas), Flag(c.permanent), Valued(c.wmName), Valued(c.underlineWidth),
      Valued(c.bgColor), Valued(c.fgColor), Valued(c.verticalOffset), Valued(c.underlineColor) ]
  }

  /** The element one setting contributes: `_option_if_option` for a valued one, `_option_flag` for a switch. */
  function SlotOf(switch: string, s: Setting): Option<string> {
    match s
    case Valued(v) => OptionIfOption(switch, v)
    case Flag(a) => OptionFlag(switch, a)
  }

  /** The `opts` list of `_build_cli_option_string`, one slot per setting, before `None`s are dropped. */
  function Slots(c: Config): (r: seq<Option<string>>)
    ensures |r| == |Switches|
    ensures forall k :: 0 <= k < |r| ==> (r[k].Some? <==> Settings(c)[k].Given())
  {
    var settings := Settings(c);
    seq(|Switches|, k requires 0 <= k < |Switches| => SlotOf(Switches[k], settings[k]))
  }

  function CountSome(slots: seq<Option<string>>): (n: nat)
    ensures n <= |slots|
  {
    if |slots| == 0 then 0 else (if slots[0].Some? then 1 else 0) + CountSome(slots[1..])
  }

  /** Counting a prefix of `slots` is counting its head, then the matching prefix of its tail. */
  lemma CountSomePrefixes(slots: seq<Option<string>>)
    requires 0 < |slots|
    ensures forall i :: 0 < i <= |slots| ==>
      CountSome(slots[..i]) == (if slots[0].Some? then 1 else 0) + CountSome(slots[1..][..i - 1])
  {
    forall i | 0 < i <= |slots|
      ensures CountSome(slots[..i]) == (if slots[0].Some? then 1 else 0) + CountSome(slots[1..][..i - 1])
    {
      assert slots[..i][1..] == slots[1..][..i - 1];
    }
  }

  /**
   * `[x for x in opts if x is not None]`: the present values, in slot order
   * and with their multiplicity; the value of slot `i` lands at the number
   * of present slots before it.
   */
  function Present(slots: seq<Option<string>>): (r: seq<string>)
    ensures |r| == CountSome(slots)
    ensures forall x :: x in r <==> Some(x) in slots
    ensures forall i :: 0 <= i < |slots| && slots[i].Some? ==>
      CountSome(slots[..i]) < |r| && r[CountSome(slots[..i])] == slots[i].value
  {
    if |slots| == 0 then []
    else
      var rest := Present(slots[1..]);
      assert forall x :: Some(x) in slots <==> slots[0] == Some(x) || Some(x) in slots[1..];
      CountSomePrefixes(slots);
      assert slots[..0] == [];
      if slots[0].Some? then [slots[0].value] + rest else rest
  }

  /** The switches of the given settings, in the fixed order, as slots. */
  function GivenSwitches(c: Config): (r: seq<Option<string>>)
    ensures |r| == |Switches|
  {
    var settings := Settings(c);
    seq(|Switches|, k requires 0 <= k < |Switches| => if settings[k].Given() then Some(Switches[k]) else None)
  }

  function SwitchesOf(elements: seq<string>): (r: seq<string>)
    ensures |r| == |elements|
  {
    if |elements| == 0 then [] else [SwitchOf(elements[0])] + SwitchesOf(elements[1..])
  }

  /**
   * `_build_cli_option_string`: one element per given setting, absent ones
   * omitted, so at most twelve; the switches appear in the fixed order.
   */
  function BuildCliOptions(c: Config): (r: seq<string>)
    ensures |r| == CountSome(GivenSwitches(c)) <= |Switches|
    ensures SwitchesOf(r) == Present(GivenSwitches(c))
  {
    var slots := Slots(c);
    SlotsCarrySwitches(c);
    SwitchesOfPresent(slots, GivenSwitches(c));
    Present(slots)
  }

  /** A slot is present iff its setting is given, and then it carries `switch`. */
  ghost predicate SlotCarries(slot: Option<string>, given: Option<string>, switch: string) {
    && (slot.Some? <==> given.Some?)
    && (slot.Some? ==> SwitchOf(slot.value) == switch && given.value == switch)
  }

  /** The slot of one setting is present iff the setting is given, and then it carries the two-letter switch. */
  lemma SlotOfCarries(switch: string, s: Setting)
    requires |switch| == 2
    ensures SlotCarries(SlotOf(switch, s), if s.Given() then Some(switch) else None, switch)
  {
  }

  lemma SwitchesAreShort()
    ensures forall k :: 0 <= k < |Switches| ==> |Switches[k]| == 2
  {
  }

  /** Every slot of `Slots(c)` is absent exactly when the setting is, and carries the switch of its position. */
  lemma SlotsCarrySwitches(c: Config)
    ensures |Slots(c)| == |Switches| == |GivenSwitches(c)|
    ensures forall k :: 0 <= k < |Switches| ==> SlotCarries(Slots(c)[k], GivenSwitches(c)[k], Switches[k])
  {
    SwitchesAreShort();
    var settings := Settings(c);
    forall k | 0 <= k < |Switches|
      ensures SlotCarries(Slots(c)[k], GivenSwitches(c)[k], Switches[k])
    {
      SlotOfCarries(Switches[k], settings[k]);
    }
  }

  /** Taking switches commutes with dropping absent slots. */
  lemma {:induction false} SwitchesOfPresent(slots: seq<Option<string>>, switches: seq<Option<string>>)
    requires |slots| == |switches|
    requires forall k :: 0 <= k < |slots| ==> (slots[k].Some? <==> switches[k].Some?)
    requires forall k :: 0 <= k < |slots| ==> slots[k].Some? ==> SwitchOf(slots[k].value) == switches[k].value
    ensures SwitchesOf(Present(slots)) == Present(switches)
  {
    if |slots| > 0 {
      SwitchesOfPresent(slots[1..], switches[1..]);
      if slots[0].Some? {
        var p := Present(slots);
        assert p == [slots[0].value] + Present(slots[1..]);
        assert p[1..] == Present(slots[1..]);
      }
    }
  }

  /** The first element of `elements` that carries `switch`. */
  function Find(elements: seq<string>, switch: string): (r: Option<string>)
    ensures r.Some? ==> r.value in elements && SwitchOf(r.value) == switch
    ensures r.None? ==> forall e :: e in elements ==> SwitchOf(e) != switch
  {
    if |elements| == 0 then None
    else if SwitchOf(elements[0]) == switch then Some(elements[0])
    else Find(elements[1..], switch)
  }

  /**
   * Searching the present elements for the switch of position `i` finds
   * exactly slot `i`, because every slot carries its own, distinct switch.
   */
  lemma {:induction false} FindPresent(slots: seq<Option<string>>, switches: seq<string>, i: nat)
    requires |slots| == |switches| && i < |slots|
    requires forall j, k :: 0 <= j < k < |switches| ==> switches[j] != switches[k]
    requires forall k :: 0 <= k < |slots| && slots[k].Some? ==> SwitchOf(slots[k].value) == switches[k]
    ensures Find(Present(slots), switches[i]) == slots[i]
  {
    if i == 0 {
      if slots[0].None? {
        forall e | e in Present(slots)
          ensures SwitchOf(e) != switches[0]
        {
          assert Some(e) in slots;
          var k :| 0 <= k < |slots| && slots[k] == Some(e);
        }
      }
    } else {
      FindPresent(slots[1..], switches[1..], i - 1);
      if slots[0].Some? {
        assert switches[0] != switches[i];
      }
    }
  }

  lemma SwitchesDistinct()
    ensures forall j, k :: 0 <= j < k < |Switches| ==> Switches[j] != Switches[k]
  {
  }

  /** The setting read back from the element found for a valued switch: only ` switch value` is accepted. */
  function ValueSetting(found: Option<string>, switch: string): Option<string> {
    if found.Some? && |found.value| >= |switch| + 2 && found.value[..|switch| + 2] == [' '] + switch + [' ']
    then Some(found.value[|switch| + 2..])
    else None
  }

  /** The setting read back from the element found for a plain switch: only the bare switch is accepted, and only its presence survives. */
  function FlagSetting(found: Option<string>, switch: string): Option<bool> {
    if found.Some? && found.value == switch then Some(true) else None
  }

  /** Reads a flag list back into settings. */
  function Parse(elements: seq<string>): Config {
    Config(
      ValueSetting(Find(elements, "-g"), "-g"), FlagSetting(Find(elements, "-b"), "-b"),
      FlagSetting(Find(elements, "-d"), "-d"), ValueSetting(Find(elements, "-f"), "-f"),
      ValueSetting(Find(elements, "-a"), "-a"), FlagSetting(Find(elements, "-p"), "-p"),
      ValueSetting(Find(elements, "-n"), "-n"), ValueSetting(Find(elements, "-u"), "-u"),
      ValueSetting(Find(elements, "-B"), "-B"), ValueSetting(Find(elements, "-F"), "-F"),
      ValueSetting(Find(elements, "-o"), "-o"), ValueSetting(Find(elements, "-U"), "-U"))
  }

  /** Only the exact element text is read back: a flag with a value, or a valued switch without its space, gives nothing. */
  lemma ParseIsExact()
    ensures Parse([" -b junk"]).bottom == None
    ensures Parse(["-g"]).geometry == None
  {
    assert SwitchOf(" -b junk") == "-b";
    assert Find([" -b junk"], "-b") == Some(" -b junk");
    assert Find(["-g"], "-g") == Some("-g");
  }

  /** A boolean switch that is given at all is emitted, so only its presence survives. */
  function Presence(arg: Option<bool>): Option<bool> {
    if arg.Some? then Some(true) else None
  }

  /** The settings with every boolean switch reduced to its presence. */
  function Normalize(c: Config): Config {
    c.(bottom := Presence(c.bottom), forceDocking := Presence(c.forceDocking), permanent := Presence(c.permanent))
  }

  lemma ValueSlotRoundTrip(switch: string, option: Option<string>)
    requires |switch| == 2
    ensures ValueSetting(OptionIfOption(switch, option), switch) == option
  {
    if option.Some? {
      var e := OptionIfOption(switch, option).value;
      assert e == [' '] + switch + [' '] + option.value;
      assert e[..|switch| + 2] == [' '] + switch + [' '] && e[|switch| + 2..] == option.value;
    }
  }

  lemma FlagSlotRoundTrip(switch: string, arg: Option<bool>)
    ensures FlagSetting(OptionFlag(switch, arg), switch) == Presence(arg)
  {
  }

  /**
   * Reading the flags back recovers every valued setting exactly and every
   * boolean switch up to its truth value: `bottom=False` still emits `-b`.
   */
  lemma ParseBuildRoundTrip(c: Config)
    ensures Parse(BuildCliOptions(c)) == Normalize(c)
  {
    var slots := Slots(c);
    var built := BuildCliOptions(c);
    assert built == Present(slots);
    SlotsCarrySwitches(c);
    SwitchesDistinct();
    FindPresent(slots, Switches, 0);
    ValueSlotRoundTrip("-g", c.geometry);
    FindPresent(slots, Switches, 1);
    FlagSlotRoundTrip("-b", c.bottom);
    FindPresent(slots, Switches, 2);
    FlagSlotRoundTrip("-d", c.forceDocking);
    FindPresent(slots, Switches, 3);
    ValueSlotRoundTrip("-f", c.font);
    FindPresent(slots, Switches, 4);
    ValueSlotRoundTrip("-a", c.clickableAreas);
    FindPresent(slots, Switches, 5);
    FlagSlotRoundTrip("-p", c.permanent);
    FindPresent(slots, Switches, 6);
    ValueSlotRoundTrip("-n", c.wmName);
    FindPresent(slots, Switches, 7);
    ValueSlotRoundTrip("-u", c.underlineWidth);
    FindPresent(slots, Switches, 8);
    ValueSlotRoundTrip("-B", c.bgColor);
    FindPresent(slots, Switches, 9);
    ValueSlotRoundTrip("-F", c.fgColor);
    FindPresent(slots, Switches, 10);
    ValueSlotRoundTrip("-o", c.verticalOffset);
    FindPresent(slots, Switches, 11);
    ValueSlotRoundTrip("-U", c.underlineColor);
  }
}

=== FILE: registry.dfy ===
/**
 * The bar registry `LemonbarServer` of lemonpy/server.py: user names map to
 * local ids, local ids map to bar objects, and every call into a bar goes
 * through a name lookup.
 *
 * Bars are duck-typed objects in the source. Here a bar is an identity
 * (`BarRef`); its `managed` attribute lives in the manager state as the set
 * of bar objects whose flag is set, and what its `update`/`close` methods do
 * is a `Responder` oracle supplied by the caller.
 */
module Registry {
  import opened Wrappers
  import opened Errors

  type Name = string

  /** The local id that `uuid.uuid4()` draws; a counter makes freshness provable. */
  type Id = nat

  /** The identity of one bar object. */
  type BarRef = nat

  datatype BarOp = Update(content: string) | Close

  /** One call into a bar object: `bar.update(content)` or `bar.close()`. */
  datatype Call = Call(bar: BarRef, op: BarOp)

  /** What a call into a bar does: `None` when it returns normally, `Some(e)` when it raises `e`. */
  type Responder = Call -> Option<Error>

  /** The calls an operation made into bars, in order, and how the operation ended. */
  datatype Effect = Effect(calls: seq<Call>, outcome: Outcome<Error>)

  /** The manager after a state-changing operation, and how that operation ended. */
  datatype Step = Step(state: Manager, outcome: Outcome<Error>)

  datatype Manager = Manager(
    /** `_name_map`: user name to local id. */
    names: map<Name, Id>,
    /** `_bar_map`: local id to bar, in the dictionary's iteration (insertion) order. */
    bars: seq<(Id, BarRef)>,
    /** The next id the generator hands out; every id in use is below it. */
    nextId: Id,
    /** The bar objects whose `managed` attribute is true. */
    managed: set<BarRef>)

  /** A fresh `LemonbarServer()`: both maps empty; `managed` flags are whatever the bar objects carry. */
  function Init(managed: set<BarRef>): (r: Manager)
    ensures r.names == map[] && r.bars == []
    ensures forall name :: BarFromName(r, name) == Err(NotManaged)
    ensures forall respond :: CloseAll(r, respond) == Effect([], Pass)
    ensures r.managed == managed
  {
    Manager(map[], [], 0, managed)
  }

  /** `_bar_map.get(id)`. */
  function Get(bars: seq<(Id, BarRef)>, id: Id): (r: Option<BarRef>)
    ensures r.Some? <==> exists i :: 0 <= i < |bars| && bars[i].0 == id
    ensures r.Some? ==> exists i :: 0 <= i < |bars| && bars[i] == (id, r.value)
  {
    if |bars| == 0 then None
    else if bars[0].0 == id then Some(bars[0].1)
    else Get(bars[1..], id)
  }

  /** `_bar_map.update({id: bar})`: an existing key keeps its position, a new key goes last. */
  function Put(bars: seq<(Id, BarRef)>, id: Id, bar: BarRef): (r: seq<(Id, BarRef)>)
    ensures Get(r, id) == Some(bar)
    ensures forall other :: other != id ==> Get(r, other) == Get(bars, other)
    ensures Get(bars, id).None? ==> r == bars + [(id, bar)]
  {
    if |bars| == 0 then [(id, bar)]
    else if bars[0].0 == id then [(id, bar)] + bars[1..]
    else [bars[0]] + Put(bars[1..], id, bar)
  }

  /**
   * What every reachable manager satisfies: ids are below the generator,
   * names have distinct ids, each stored id and each stored bar object occurs
   * once, and every stored bar has its `managed` flag set.
   */
  ghost predicate Valid(m: Manager) {
    && (forall n :: n in m.names ==> m.names[n] < m.nextId)
    && (forall a, b :: a in m.names && b in m.names && a != b ==> m.names[a] != m.names[b])
    && (forall i :: 0 <= i < |m.bars| ==> m.bars[i].0 < m.nextId && m.bars[i].1 in m.managed)
    && (forall i, j :: 0 <= i < j < |m.bars| ==> m.bars[i].0 != m.bars[j].0 && m.bars[i].1 != m.bars[j].1)
  }

  lemma InitValid(managed: set<BarRef>)
    ensures Valid(Init(managed))
  {
  }

  /**
   * `_bar_from_name`: `_bar_map.get(_name_map.get(name))`, raising when the
   * result is `None`. An unknown name gives `get(None)`, and `None` is never
   * an id, so that lookup finds nothing.
   */
  function BarFromName(m: Manager, name: Name): (r: Result<BarRef, Error>)
    ensures r.Ok? <==> name in m.names && exists i :: 0 <= i < |m.bars| && m.bars[i].0 == m.names[name]
    ensures r.Ok? ==> exists i :: 0 <= i < |m.bars| && m.bars[i] == (m.names[name], r.value)
    ensures r.Err? ==> r.error == NotManaged
  {
    var id := if name in m.names then Some(m.names[name]) else None;
    var bar := if id.Some? then Get(m.bars, id.value) else None;
    if bar.None? then Err(NotManaged) else Ok(bar.value)
  }

  /** `_register_by_id`: refuse a bar that is already managed, else store it and set its flag. */
  function RegisterById(m: Manager, id: Id, bar: BarRef): (r: Step)
    ensures r.outcome == Fail(AlreadyManaged) <==> bar in m.managed
    ensures r.outcome.Pass? <==> bar !in m.managed
    ensures r.outcome.Fail? ==> r.state == m
    ensures r.outcome.Pass? ==> r.state.names == m.names && r.state.managed == m.managed + {bar}
    ensures r.outcome.Pass? ==> Get(r.state.bars, id) == Some(bar)
    ensures r.outcome.Pass? ==> forall other :: other != id ==> Get(r.state.bars, other) == Get(m.bars, other)
  {
    if bar in m.managed then Step(m, Fail(AlreadyManaged))
    else Step(m.(bars := Put(m.bars, id, bar), managed := m.managed + {bar}), Pass)
  }

  /**
   * `register(name, bar)` as written: a duplicate name is refused first;
   * otherwise the name is bound to a fresh id BEFORE the managed check runs,
   * so an `AlreadyManaged` failure still leaves the name bound.
   */
  function Register(m: Manager, name: Name, bar: BarRef): (r: Step)
    ensures r.outcome == Fail(DuplicateBarId) <==> name in m.names
    ensures r.outcome == Fail(AlreadyManaged) <==> name !in m.names && bar in m.managed
    ensures r.outcome == Pass <==> name !in m.names && bar !in m.managed
    ensures r.outcome == Fail(DuplicateBarId) ==> r.state == m
    ensures r.outcome.Fail? ==> r.state.bars == m.bars && r.state.managed == m.managed
    ensures name in r.state.names
    ensures r.outcome.Pass? ==> BarFromName(r.state, name) == Ok(bar) && r.state.managed == m.managed + {bar}
  {
    if name in m.names then Step(m, Fail(DuplicateBarId))
    else
      var id := m.nextId;
      RegisterById(m.(names := m.names[name := id], nextId := id + 1), id, bar)
  }

  /** `Register` keeps the invariant. */
  lemma RegisterPreservesValid(m: Manager, name: Name, bar: BarRef)
    requires Valid(m)
    ensures Valid(Register(m, name, bar).state)
  {
    if name !in m.names {
      BindNameValid(m, name);
      if bar !in m.managed {
        var named := m.(names := m.names[name := m.nextId], nextId := m.nextId + 1);
        RegisterAppends(m, name, bar);
        AppendValid(named, m.nextId, bar);
      }
    }
  }

  /** A successful `Register` binds the name to the next id and appends the bar under it. */
  lemma RegisterAppends(m: Manager, name: Name, bar: BarRef)
    requires Valid(m)
    requires name !in m.names && bar !in m.managed
    ensures forall i :: 0 <= i < |m.bars| ==> m.bars[i].0 != m.nextId
    ensures Register(m, name, bar).state ==
      m.(names := m.names[name := m.nextId], nextId := m.nextId + 1, bars := m.bars + [(m.nextId, bar)], managed := m.managed + {bar})
  {
    assert Get(m.bars, m.nextId).None?;
  }

  /** Binding a new name to the next id keeps the invariant. */
  lemma BindNameValid(m: Manager, name: Name)
    requires Valid(m)
    requires name !in m.names
    ensures Valid(m.(names := m.names[name := m.nextId], nextId := m.nextId + 1))
  {
  }

  /** Appending an unmanaged bar under an unused id, and setting its flag, keeps the invariant. */
  lemma AppendValid(m: Manager, id: Id, bar: BarRef)
    requires Valid(m)
    requires id < m.nextId && bar !in m.managed
    requires forall i :: 0 <= i < |m.bars| ==> m.bars[i].0 != id
    ensures Valid(m.(bars := m.bars + [(id, bar)], managed := m.managed + {bar}))
  {
    var bars' := m.bars + [(id, bar)];
    forall i, j | 0 <= i < j < |bars'|
      ensures bars'[i].0 != bars'[j].0 && bars'[i].1 != bars'[j].1
    {
      assert bars'[i] == m.bars[i];
    }
    forall i | 0 <= i < |bars'|
      ensures bars'[i].0 < m.nextId && bars'[i].1 in m.managed + {bar}
    {
    }
  }

  /** `Register` never changes what any other name resolves to. */
  lemma RegisterFrame(m: Manager, name: Name, bar: BarRef, other: Name)
    requires Valid(m)
    requires other != name
    ensures BarFromName(Register(m, name, bar).state, other) == BarFromName(m, other)
  {
    var r := Register(m, name, bar);
    if name !in m.names && other in m.names {
      assert r.state.names[other] == m.names[other] != m.nextId;
    }
  }

  /**
   * After an `AlreadyManaged` failure the name is bound to an id that holds
   * no bar: looking it up fails, and registering it again is a duplicate.
   */
  lemma AlreadyManagedLeavesNameDangling(m: Manager, name: Name, bar: BarRef, other: BarRef)
    requires Valid(m)
    requires Register(m, name, bar).outcome == Fail(AlreadyManaged)
    ensures BarFromName(Register(m, name, bar).state, name) == Err(NotManaged)
    ensures Register(Register(m, name, bar).state, name, other).outcome == Fail(DuplicateBarId)
  {
    var s := Register(m, name, bar).state;
    assert s.names[name] == m.nextId;
    forall i | 0 <= i < |s.bars|
      ensures s.bars[i].0 != m.nextId
    {
    }
  }

  /**
   * Two distinct names with two distinct unmanaged bars both register, and
   * each name then resolves to its own bar.
   */
  lemma RegisterTwoNames(m: Manager, a: Name, b: Name, barA: BarRef, barB: BarRef)
    requires Valid(m)
    requires a != b && a !in m.names && b !in m.names
    requires barA != barB && barA !in m.managed && barB !in m.managed
    ensures Register(m, a, barA).outcome == Pass
    ensures Register(Register(m, a, barA).state, b, barB).outcome == Pass
    ensures BarFromName(Register(Register(m, a, barA).state, b, barB).state, a) == Ok(barA)
    ensures BarFromName(Register(Register(m, a, barA).state, b, barB).state, b) == Ok(barB)
  {
    RegisterPreservesValid(m, a, barA);
    RegisterFrame(Register(m, a, barA).state, b, barB, a);
  }

  /** The same bar object under a second name is refused as already managed. */
  lemma SameBarTwice(m: Manager, a: Name, b: Name, bar: BarRef)
    requires a != b && a !in m.names && b !in m.names && bar !in m.managed
    ensures Register(Register(m, a, bar).state, b, bar).outcome == Fail(AlreadyManaged)
  {
  }

  /** `update_bar(name, content)`: resolve the name, then call `update(content)` on that bar only. */
  function UpdateBar(m: Manager, name: Name, content: string, respond: Responder): (r: Effect)
    ensures BarFromName(m, name).Err? ==> r == Effect([], Fail(NotManaged))
    ensures BarFromName(m, name).Ok? ==>
      && r.calls == [Call(BarFromName(m, name).value, Update(content))]
      && r.outcome == OutcomeOf(respond(r.calls[0]))
  {
    match BarFromName(m, name)
    case Err(e) => Effect([], Fail(e))
    case Ok(bar) =>
      var call := Call(bar, Update(content));
      Effect([call], OutcomeOf(respond(call)))
  }

  /** `close_bar(name)`: resolve the name and close that bar; both maps are left as they are. */
  function CloseBar(m: Manager, name: Name, respond: Responder): (r: Effect)
    ensures BarFromName(m, name).Err? ==> r == Effect([], Fail(NotManaged))
    ensures BarFromName(m, name).Ok? ==>
      && r.calls == [Call(BarFromName(m, name).value, Close)]
      && r.outcome == OutcomeOf(respond(r.calls[0]))
  {
    match BarFromName(m, name)
    case Err(e) => Effect([], Fail(e))
    case Ok(bar) =>
      var call := Call(bar, Close);
      Effect([call], OutcomeOf(respond(call)))
  }

  /** A successful registration makes later updates of that name reach exactly that bar. */
  lemma UpdateAfterRegister(m: Manager, name: Name, bar: BarRef, content: string, respond: Responder)
    requires Register(m, name, bar).outcome == Pass
    ensures UpdateBar(Register(m, name, bar).state, name, content, respond).calls == [Call(bar, Update(content))]
  {
  }

  /**
   * `close_bar` returns no new manager state, so it removes nothing: the
   * name still reaches the same bar, and registering it again is still a
   * duplicate.
   */
  lemma CloseBarKeepsName(m: Manager, name: Name, bar: BarRef, respond: Responder)
    requires Register(m, name, bar).outcome == Pass
    ensures CloseBar(Register(m, name, bar).state, name, respond).calls == [Call(bar, Close)]
    ensures Register(Register(m, name, bar).state, name, bar).outcome == Fail(DuplicateBarId)
  {
  }

  /**
   * `close()`: call `close()` on every stored bar in iteration order. The
   * first raised error leaves the loop, so later bars are not attempted.
   */
  function CloseAll(m: Manager, respond: Responder): (r: Effect)
    ensures |r.calls| <= |m.bars|
    ensures forall i :: 0 <= i < |r.calls| ==> r.calls[i] == Call(m.bars[i].1, Close)
    ensures r.outcome.Pass? ==> |r.calls| == |m.bars|
    ensures r.outcome.Pass? <==> forall i :: 0 <= i < |r.calls| ==> respond(r.calls[i]).None?
    ensures r.outcome.Fail? ==> 0 < |r.calls| && respond(r.calls[|r.calls| - 1]) == Some(r.outcome.error)
    ensures r.outcome.Fail? ==> forall i :: 0 <= i < |r.calls| - 1 ==> respond(r.calls[i]).None?
  {
    CloseEach(m.bars, respond)
  }

  /** The loop of `close()` over the remaining `(id, bar)` entries. */
  function CloseEach(bars: seq<(Id, BarRef)>, respond: Responder): (r: Effect)
    ensures |r.calls| <= |bars|
    ensures forall i :: 0 <= i < |r.calls| ==> r.calls[i] == Call(bars[i].1, Close)
    ensures r.outcome.Pass? ==> |r.calls| == |bars|
    ensures r.outcome.Pass? <==> forall i :: 0 <= i < |r.calls| ==> respond(r.calls[i]).None?
    ensures r.outcome.Fail? ==> 0 < |r.calls| && respond(r.calls[|r.calls| - 1]) == Some(r.outcome.error)
    ensures r.outcome.Fail? ==> forall i :: 0 <= i < |r.calls| - 1 ==> respond(r.calls[i]).None?
  {
    if |bars| == 0 then Effect([], Pass)
    else
      var call := Call(bars[0].1, Close);
      match respond(call)
      case Some(e) => Effect([call], Fail(e))
      case None =>
        var rest := CloseEach(bars[1..], respond);
        Effect([call] + rest.calls, rest.outcome)
  }

  /**
   * The corrected, atomic registration: the duplicate and
   * managed checks both run before anything is stored.
   */
  function RegisterAtomic(m: Manager, name: Name, bar: BarRef): (r: Step)
    ensures r.outcome.Fail? ==> r.state == m
    ensures r.outcome == Fail(DuplicateBarId) <==> name in m.names
    ensures r.outcome == Fail(AlreadyManaged) <==> name !in m.names && bar in m.managed
    ensures r.outcome.Pass? ==> BarFromName(r.state, name) == Ok(bar)
  {
    if name in m.names then Step(m, Fail(DuplicateBarId))
    else if bar in m.managed then Step(m, Fail(AlreadyManaged))
    else Register(m, name, bar)
  }

  /** The as-written `register` leaks the name: counterexample with bar 7 already managed. */
  lemma RegisterLeaksName()
    ensures Register(Init({7}), "top", 7).outcome == Fail(AlreadyManaged)
    ensures Register(Init({7}), "top", 7).state != Init({7})
    ensures Register(Register(Init({7}), "top", 7).state, "top", 8).outcome == Fail(DuplicateBarId)
    ensures RegisterAtomic(RegisterAtomic(Init({7}), "top", 7).state, "top", 8).outcome == Pass
  {
  }

  /** The two versions agree whenever registration succeeds, and the atomic one keeps the invariant. */
  lemma RegisterAtomicAgrees(m: Manager, name: Name, bar: BarRef)
    requires Valid(m)
    ensures RegisterAtomic(m, name, bar).outcome == Register(m, name, bar).outcome
    ensures RegisterAtomic(m, name, bar).outcome.Pass? ==> RegisterAtomic(m, name, bar) == Register(m, name, bar)
    ensures Valid(RegisterAtomic(m, name, bar).state)
  {
    RegisterPreservesValid(m, name, bar);
  }
}

=== FILE: wrappers.dfy ===
/** Failure-carrying result types shared by every module of the model. */
module Wrappers {

  datatype Option<+T> = None | Some(value: T)

  /** A value or the error that the corresponding Python call raises. */
  datatype Result<+T, +E> = Ok(value: T) | Err(error: E)

  /** Normal return (`Pass`) or a raised error, for calls whose return value is unused. */
  datatype Outcome<+E> = Pass | Fail(error: E)

  /** A call that either returns normally (`None`) or raises `e` (`Some(e)`) seen as an outcome. */
  function OutcomeOf<E>(raised: Option<E>): (r: Outcome<E>)
    ensures r.Pass? <==> raised.None?
    ensures r.Fail? ==> r.error == raised.value
  {
    match raised
    case None => Pass
    case Some(e) => Fail(e)
  }
}
